=== FILE: README.md ===
# Ingestion bookkeeping of populate_database.py, in Dafny

`populate_database.py` loads PDF files into a persistent vector store. Most of
its work happens in libraries: PDF text extraction, text splitting,
embeddings and the store itself. Around those calls sit four small pieces of
deterministic logic, and this project models and proves those four:

- **Chunk identity** (`calculate_chunk_ids`), module `ChunkIds`. Every chunk
  gets the id `source:page:index`. `index` counts the chunk's position in the
  current run of consecutive chunks that share a `source:page` key. The loop is
  modelled as a fold over a two-field `Cursor` (previous key, running index).
  It is proved equal to a reference definition, `RunPos`: the distance back to
  the start of the maximal run of equal keys.
- **Add-if-absent sync** (the id logic of `add_to_chroma`), module `Sync`. The
  store is its set of chunk ids. Chunks whose id is already stored are
  dropped, and the rest are inserted in one batch, in order.
- **Admission guard** (`is_pdf_too_large`, `estimate_chunks`,
  `can_load_pdf`), module `Admission`. It applies a 10 MiB size ceiling and a
  10,000-chunk budget to a byte size, an extracted-text length and the store's
  id set.
- **Index selection** (`select_pdfs`), module `Selection`. It lists the `.pdf`
  entries, splits the typed answer on commas and strips each token. It keeps
  the digit tokens naming an offered position, with order and repeats
  preserved. An empty result, or an empty listing, ends the run. The script
  raises ValueError on some digit tokens (see "## Findings"):
  `Selection.SelectPdfsAsWritten` models it as written, and
  `Selection.SelectPdfs` models the corrected rule, which skips them.

Module `PyText` holds the Python string primitives these rely on:
- `str(n)` inside f-strings;
- `str.split(",")` together with `",".join`, its inverse;
- `str.strip()`;
- `str.isdigit()` and `int()`.

Module `Wrappers` holds `Option` and `Result`.

Inputs the script obtains from its environment are parameters of the model:
- the file's byte size;
- the length of its extracted text;
- the directory listing;
- the typed answer;
- the store's id set.

The script's exits (`exit(1)`) are `Failure` values of `Selection.Exit`.

Three behaviours of the code are worth knowing before reading the model:
- **Ids can repeat within one run.** The code gives distinct ids only when
  each `source:page` key occupies one contiguous block of chunks
  (`ChunkIds.IdsDistinctWhenGrouped`). A page that comes back after another
  page restarts at index 0 and repeats an id
  (`ChunkIds.ReturningPageRepeatsId`). This happens, for example, when a file
  with more than one page is selected twice, because `select_pdfs` keeps
  repeated positions. A one-page file selected twice does not repeat ids: its
  chunks form one run, and the index just keeps counting.
- **The admission guard is never applied.** `main` never calls
  `can_load_pdf`. The guard is modelled as the function it defines, and
  `Selection.SelectPdfs` does not consult it.
- **There is a single loader.** `load_documents` uses one PDF loader per
  file. It is not part of this model.

## Model

| member | source | states |
|---|---|---|
| `Admission.IsPdfTooLarge` | populate_database.py:16-19 | a file is too large exactly when its byte size exceeds the ceiling times 2^20 bytes |
| `Admission.RealDivisionCompare` | populate_database.py:18-19 | the real-valued `size / 2^20 > max` comparison agrees with the whole-byte comparison `size > max * 2^20` for every size |
| `Admission.EstimateChunks` | populate_database.py:21-27 | the estimate is at least 1 and is the least `e` with `e * chunk_size > length`, i.e. `(e-1)*chunk_size <= length < e*chunk_size` |
| `Admission.CanLoadPdf` | populate_database.py:29-41 | refused for size exactly when over 10 MiB; admitted exactly when within the size limit, the store holds fewer ids than the budget, and the text is shorter than the remaining budget times 800 characters; a budget refusal reports the distinct id count and an overshooting total |
| `Admission.AdmissionMonotone` | populate_database.py:29-41 | admission is monotone: a smaller file, shorter text or smaller id set is admitted whenever the larger one was |
| `Admission.CanLoad` | populate_database.py:29-41 | the boolean result is true exactly when the file is not too large and the distinct stored ids plus the estimate are at most 10,000, the comparison of line 38 |
| `Admission.FullStoreAdmitsNothing` | populate_database.py:35-40 | once the store holds the full budget of ids, no file is admitted |
| `ChunkIds.PageKey` | populate_database.py:116-118 | the key is the rendered source, a colon, then the rendered page, and the page part holds no colon, so the key splits uniquely at its last colon |
| `ChunkIds.ChunkId` | populate_database.py:125 | the id is the key, a colon, then the index's decimal digits without leading zeros, as `str` writes them |
| `ChunkIds.Advance` | populate_database.py:116-126 | one loop step records the key as the previous key; the index goes up by one when the key equals the previous key and restarts at 0 otherwise |
| `ChunkIds.RunIndices` | populate_database.py:115-126 | the fold gives one index per key; where a key differs from its predecessor the index is 0, and where it equals it the index is the predecessor's plus one |
| `ChunkIds.RenderSource` | populate_database.py:116-118 | a present source renders as itself, and a missing source renders as `None`, the same text as a file named `None` |
| `ChunkIds.RenderPage` | populate_database.py:117-118 | the rendered page (a number, a negative number or `None`) never contains the `:` separator |
| `ChunkIds.RenderPageText` | populate_database.py:117-118 | a page number renders as `str` writes it (`PyText.IntToString`), and a missing page as `None` |
| `ChunkIds.CalculateChunkIds` | populate_database.py:111-130 | the same number of chunks comes back, in order, each with an id and with every other field unchanged |
| `ChunkIds.RunPosIsRunLength` | populate_database.py:120-123 | the reference index of entry `i` is the distance back to the start of the maximal run of equal keys ending at `i` |
| `ChunkIds.AdvanceCursorAfter` | populate_database.py:120-126 | one loop step applied to the state after a prefix gives the state after the prefix extended by one key |
| `ChunkIds.RunIndicesFollowRuns` | populate_database.py:115-126 | the fold, started from the state after any prefix, gives each later key its reference run position in the whole sequence |
| `ChunkIds.RunIndicesFromStart` | populate_database.py:112-126 | the fold from the initial state (no previous key, index 0) computes the reference run position of every key |
| `ChunkIds.ChunkIdsAreRunPositions` | populate_database.py:116-125 | every id is the chunk's `source:page` key, a colon and its position in the maximal run of equal keys it ends; that run really starts where the position says |
| `ChunkIds.NewRunStartsAtZero` | populate_database.py:122-123 | the first chunk, and any chunk whose key differs from its predecessor's, gets index 0 |
| `ChunkIds.SameRunIncrements` | populate_database.py:120-121 | a chunk whose key equals its predecessor's gets the predecessor's index plus one |
| `ChunkIds.IndexDetermined` | populate_database.py:125 | the index written into an id is the chunk's run position and no other number |
| `ChunkIds.ChunkIdInjective` | populate_database.py:125 | different keys or different indices never give the same id string |
| `ChunkIds.PageKeyInjective` | populate_database.py:116-118 | two chunks share a key exactly when their rendered sources agree and their pages are equal |
| `ChunkIds.IdsDistinctWithinRun` | populate_database.py:120-125 | within a run of equal keys all ids are pairwise distinct |
| `ChunkIds.IdsDistinctWhenGrouped` | populate_database.py:115-128 | when each key's chunks are contiguous, all ids of the batch are pairwise distinct |
| `ChunkIds.GroupedRun` | populate_database.py:115-123 | when each key's chunks are contiguous, every chunk between two chunks of one key has that key, so they share one run |
| `ChunkIds.IdsDifferAcrossKeys` | populate_database.py:116-125 | chunks with different keys never get the same id, wherever they sit in the batch |
| `ChunkIds.ReturningPageRepeatsId` | populate_database.py:115-128 | for chunks with keys `a.pdf:0`, `a.pdf:1`, `a.pdf:0` the first and third both get `a.pdf:0:0` |
| `ChunkIds.CalculateChunkIdsIdempotent` | populate_database.py:111-130 | assigning ids to already-labelled chunks changes nothing: the ids depend only on source and page |
| `Sync.IdsOf` | populate_database.py:105 | a string is in the id set exactly when some chunk carries it |
| `Sync.NewChunks` | populate_database.py:101 | the kept chunks are labelled, no more than the input, and none has a stored id |
| `Sync.NewChunksCounts` | populate_database.py:101 | each chunk is kept exactly as often as it occurs when its id is new, and never otherwise |
| `Sync.NewChunksAppend` | populate_database.py:101 | the filter distributes over concatenation, so the kept chunks keep their input order |
| `Sync.NewChunkIds` | populate_database.py:101 | the ids of the kept chunks are exactly the batch's ids minus the stored ones |
| `Sync.NewChunksEmpty` | populate_database.py:101-103 | nothing is kept exactly when every id is already stored |
| `Sync.SyncChunks` | populate_database.py:97-109 | reports the stored id count; inserts nothing exactly when every id is stored; otherwise inserts the kept chunks with their ids position by position, none already stored; afterwards the store is the old set plus the batch's ids, nothing removed |
| `Sync.AddToChroma` | populate_database.py:96-109 | after labelling, the store ends as exactly the old set plus the labelled chunks' ids; nothing is inserted exactly when all those ids are stored; otherwise the inserted chunks are the labelled chunks with a new id, in order, with their ids position by position |
| `Sync.SyncTwiceIsNoOp` | populate_database.py:101-109 | syncing the same chunks again inserts nothing and leaves the store as it was |
| `Sync.ReingestIsNoOp` | populate_database.py:96-109 | re-ingesting unchanged chunks is a no-op |
| `Sync.OneNewOfTwo` | populate_database.py:97-106 | with `a.pdf:0:0` stored and chunks `a.pdf:0:0`, `a.pdf:0:1` offered, one id is reported and only `a.pdf:0:1` is inserted |
| `Selection.EndsWith` | populate_database.py:45 | `endswith` holds exactly when the text is some prefix followed by the suffix |
| `Selection.EndsWithAppend` | populate_database.py:45 | any text followed by the suffix ends with it |
| `Selection.PdfFiles` | populate_database.py:45 | the offered files are listing entries ending in `.pdf`, and every such entry is offered |
| `Selection.PdfFilesAppend` | populate_database.py:45 | the `.pdf` filter distributes over concatenation of listings, so the offered files keep the listing's order |
| `Selection.TokenIndex` | populate_database.py:57-61 | a token that is kept names a position below the file count (its value is stated by `Selection.TokenIndexValue`, and that every zero-padded, whitespace-padded decimal position in range is kept by `Selection.TokenIndexPadded`) |
| `Selection.TokenIndexValue` | populate_database.py:57-61 | a kept token, stripped and cleared of leading zeros, is the decimal rendering of its position, which is below the file count |
| `Selection.TokenIndices` | populate_database.py:56-61 | no more positions than tokens, each below the number of files |
| `Selection.SelectedIndices` | populate_database.py:54-61 | every selected position names an offered file |
| `Selection.ParseIndices` | populate_database.py:54-66 | success gives the positions the answer's tokens name, non-empty and each below the file count; failure is the "no valid selection" exit and happens exactly when no token names an offered position |
| `Selection.NoIndicesIffNoValidToken` | populate_database.py:55-66 | no position is selected exactly when every token is rejected |
| `Selection.SelectPdfs` | populate_database.py:44-68 | succeeds exactly when some entry ends in `.pdf` and some token names an offered position; fails only with "no PDFs" (exactly when no entry ends in `.pdf`) or "no valid selection" (exactly when there are files but no token names one); on success returns, in answer order with repeats, `pdf_data/<name>` for each selected position |
| `Selection.TokenIndicesAppend` | populate_database.py:56-61 | the positions of concatenated token lists are the concatenated positions |
| `Selection.SelectedIndicesConcat` | populate_database.py:54-63 | two answers joined by a comma select the first answer's positions followed by the second's, repeats kept |
| `Selection.TokenIndexPadded` | populate_database.py:57-61 | a decimal position after any number of leading zeros, with whitespace around it, is selected exactly when it is below the number of files (`" 007 "` selects 7) |
| `Selection.TokenIndicesOfRendered` | populate_database.py:56-61 | tokens rendering offered positions in decimal parse back to those positions |
| `Selection.ParseIndicesRoundTrip` | populate_database.py:54-66 | writing a non-empty list of offered positions as a comma-separated answer and parsing it gives the list back, order and repeats included |
| `Selection.TokenIndexAsWritten` | populate_database.py:57-61 | as written, a token raises ValueError exactly when, stripped, it passes `isdigit` but is not all ASCII digits or has more than 4300 of them (`Selection.RaisesAsWritten`); a kept token is the rendering of an offered position |
| `Selection.TokenIndicesAsWritten` | populate_database.py:56-61 | as written, the loop either raises on a token or yields at most one position per token, each offered |
| `Selection.FirstRaisingToken` | populate_database.py:56-59 | when the loop as written raises, the ValueError names a token that raises, and every token before it passed without raising: the first raising token ends the loop |
| `Selection.ParseIndicesAsWritten` | populate_database.py:54-66 | as written, the parse raises on a token, ends with "no valid selection", or yields a non-empty list of offered positions; it raises exactly when some token raises, and when none does it returns what the corrected parse returns |
| `Selection.SelectPdfsAsWritten` | populate_database.py:44-68 | as written, ends with "no PDFs" exactly when no entry ends in `.pdf`; with files offered it fails exactly when the as-written parse fails, with that parse's error; on success returns `pdf_data/<name>` for each parsed position, in order, non-empty |
| `Selection.TokenAgrees` | populate_database.py:57-61 | on every token the code as written does not raise on, it gives the corrected rule's result |
| `Selection.NoRaiseWithoutNonDecimalDigits` | populate_database.py:57-59 | a token of at most 4300 characters without superscript or subscript digits never raises |
| `Selection.TokensAgree` | populate_database.py:56-61 | over a token list, the loop as written raises exactly when some token raises, and otherwise gives the corrected positions |
| `Selection.AsWrittenAgreesWithoutNonDecimalDigits` | populate_database.py:54-62 | on an answer without superscript or subscript digits whose tokens have at most 4300 characters no token raises, and the code as written and the corrected parse give the same result |
| `Selection.SelectPdfsAgree` | populate_database.py:44-68 | on every answer none of whose tokens raises (`0,x²` included), `select_pdfs` as written and the corrected selection return the same |
| `Selection.DataFilePath` | populate_database.py:68 | the path is `pdf_data`, one `/`, then the file name unchanged |
| `Selection.SplitSuperscriptAnswer` | populate_database.py:56 | `"0,²".split(",")` is `["0", "²"]` |
| `Selection.SuperscriptTokens` | populate_database.py:57-61 | as written, `0` selects file 0 and `²` raises ValueError; under the corrected rule `²` is dropped |
| `Selection.SuperscriptTokenRaises` | populate_database.py:56-61 | with two files, the answer `0,²` raises ValueError as written and selects `[0]` under the corrected rule |
| `Selection.OverlongTokenRaises` | populate_database.py:58-61 | as written, a decimal token of more than 4300 digits raises ValueError; the corrected rule drops it when its value is out of range |
| `Selection.OverlongAnswerRaises` | populate_database.py:56-61 | with two files, the answer `0,` followed by 4301 sevens raises ValueError as written and selects `[0]` under the corrected rule |
| `PyText.NatToString` | populate_database.py:125 | the rendering of a natural number is a non-empty ASCII digit string without leading zeros whose decimal value is the number |
| `PyText.NatToStringInjective` | populate_database.py:125 | different numbers render differently |
| `PyText.IntToString` | populate_database.py:118 | a non-negative integer renders as the decimal digits of its value without leading zeros; a negative one as a minus sign followed by the digits of its magnitude, likewise unpadded |
| `PyText.IntToStringInjective` | populate_database.py:118 | different integers render differently |
| `PyText.IsSpace` | populate_database.py:57 | the characters `strip()` removes, Python's `isspace` set (tab to carriage return, U+001C to space, U+0085, U+00A0, U+1680, U+2000 to U+200A, U+2028, U+2029, U+202F, U+205F, U+3000), include no digit, comma or colon, so stripping never cuts into a number or a separator |
| `PyText.IsDigitString` | populate_database.py:58 | `isdigit` holds on every decimal string; a string it accepts is non-empty, and is decimal exactly when it holds no superscript or subscript digit (acceptance of those is `PyText.DigitStringAccepts`) |
| `PyText.DigitStringAccepts` | populate_database.py:58 | `isdigit` accepts every non-empty string of ASCII digits, superscript digits (`²`, `³`, `¹`, U+2070, U+2074 to U+2079) and subscript digits (U+2080 to U+2089), and such a string holding one of the latter is not decimal |
| `PyText.ParseInt` | populate_database.py:58-59 | on a string `isdigit` accepts, `int()` succeeds exactly when every character is an ASCII digit and there are at most 4300 of them; the value renders as the string with its leading zeros removed |
| `PyText.CanonicalDigits` | populate_database.py:59 | a digit string without a leading zero is the rendering of its value |
| `PyText.LeadingZeroValue` | populate_database.py:59 | a leading zero does not change a digit string's value |
| `PyText.UnpaddedRendersValue` | populate_database.py:59 | a digit string with its leading zeros removed is the rendering of its value |
| `PyText.Split` | populate_database.py:56 | splitting gives at least one piece, and no piece contains the separator |
| `PyText.JoinSplit` | populate_database.py:56 | joining the pieces with the separator gives the original text back |
| `PyText.SplitGlued` | populate_database.py:56 | a separator-free prefix glues onto the first piece of what follows it |
| `PyText.SplitJoin` | populate_database.py:56 | splitting the join of separator-free pieces gives the pieces back |
| `PyText.StripLeftIsSuffix` | populate_database.py:57 | `lstrip` keeps a suffix, cuts only whitespace and stops at a non-whitespace character |
| `PyText.StripRightIsPrefix` | populate_database.py:57 | `rstrip` keeps a prefix, cuts only whitespace and stops at a non-whitespace character |
| `PyText.Strip` | populate_database.py:57 | `strip()` never lengthens a token (which slice it keeps is `PyText.StripIsTrimmedSlice`) |
| `PyText.StripIsTrimmedSlice` | populate_database.py:57 | `strip()` returns a contiguous slice with only whitespace cut on either side, neither starting nor ending with whitespace |
| `PyText.StripPadded` | populate_database.py:57 | whitespace around a text that neither starts nor ends with whitespace is exactly what `strip()` removes |

## Left out

- PDF loading and text extraction (`PyPDFLoader`, `PdfReader`, `load_documents`) call foreign libraries. The byte size and the extracted text length are inputs, and `load_documents`' rewrite of `source` to the base name is not modelled.
- `split_documents` delegates to a library splitter. Its output is taken as an arbitrary ordered chunk sequence.
- The store, the embedding function and `db.add_documents` are reduced to the store's id set. How the store treats two equal ids inside one batch is not modelled: the ids are inserted as given, and the id set after the insert is the old set plus the batch's ids.
- `clear_database`, `main`, `argparse`, `input`, `print`, `exit` and `os.listdir` are filesystem or process effects. They are left out except as parameters and `Failure` results.
- `os.path.getsize` is left out: the size is a parameter.
- `os.path.join` is modelled as `pdf_data/` followed by the name, which is what it does for a bare file name on a POSIX system.
- Admission.IsPdfTooLarge: divides over exact reals, not IEEE doubles. The two agree for every size below 2^53 bytes.
- Admission.CanLoadPdf: `estimate_chunks` is called with its default chunk size of 800 and `is_pdf_too_large` with its default 10 MiB. These are fixed as in the call sites.
- PyText.IsDigitString: models `str.isdigit` over ASCII digits and the superscript and subscript digits only. Other Unicode digits, such as Arabic-Indic decimal digits (which `int()` accepts) or circled digits (which it rejects), are treated as non-digits.
- Selection.SelectPdfs: uses the corrected token rule, so on an answer holding a superscript or subscript digit, or a token of more than 4300 digits, it skips the token where the script raises ValueError. `Selection.SelectPdfsAsWritten` models the script as written, and `Selection.SelectPdfsAgree` shows that the two agree on every other answer. It also does not apply the admission guard, because the script never calls `can_load_pdf`.
- PyText.ParseInt: the 4300-digit bound is CPython's default since the fix for CVE-2020-10735 (version 3.11, and the 3.10.7, 3.9.14, 3.8.14 and 3.7.14 releases). Releases before that fix have no bound, and a bound changed through `sys.set_int_max_str_digits` or `PYTHONINTMAXSTRDIGITS` is not modelled.

## Findings

| source | as written | input that shows it | evidently intended | confidence | as-written member | corrected member |
|---|---|---|---|---|---|---|
| populate_database.py:58-59 | `str.isdigit()` guards `int()`, but `isdigit` also accepts superscript and subscript digits, on which `int()` raises ValueError, and nothing catches it | two files offered, answer `0,²`: the `²` token passes the guard and `int("²")` raises, ending the run with a traceback | a token that is not a decimal number is skipped like any other invalid token | not executed | `Selection.ParseIndicesAsWritten`, shown by `Selection.SuperscriptTokenRaises` | `Selection.ParseIndices`, with `Selection.ParseIndicesRoundTrip` and `Selection.AsWrittenAgreesWithoutNonDecimalDigits` |
| populate_database.py:58-59 | `int()` also raises ValueError on a decimal string of more than 4300 digits (CPython's default bound since the fix for CVE-2020-10735), which `isdigit` lets through and nothing catches | two files offered, answer `0,` followed by 4301 sevens: the long token passes the guard and `int()` raises | an over-long number is out of range and skipped like any other invalid token | not executed | `Selection.ParseIndicesAsWritten`, shown by `Selection.OverlongAnswerRaises` | `Selection.ParseIndices`, with `Selection.OverlongTokenRaises` and `Selection.AsWrittenAgreesWithoutNonDecimalDigits` |

=== FILE: admission.dfy ===
/** The admission guard of populate_database.py: a per-file size ceiling
    and a global chunk budget. The file's byte size and the length of its
    extracted text are inputs (reading the file and extracting its text are
    outside the model); the store is represented by its set of chunk ids. */
module Admission {

  /** Global ceiling on the number of chunks in the store. */
  const MaxChunksAllowed: nat := 10000

  /** Characters per chunk the estimate assumes. */
  const ChunkSize: nat := 800

  /** Per-file size ceiling, in mebibytes. */
  const MaxSizeMb: nat := 10

  const BytesPerMb: nat := 1024 * 1024

  /** `is_pdf_too_large`: the size in bytes, divided as a real number by
      2^20, exceeds the ceiling. Dividing by a power of two is exact, so the
      comparison is the same as one on whole bytes. */
  function IsPdfTooLarge(sizeBytes: nat, maxSizeMb: nat): (r: bool)
    ensures r <==> sizeBytes > maxSizeMb * BytesPerMb
  {
    RealDivisionCompare(sizeBytes, maxSizeMb);
    (sizeBytes as real) / (BytesPerMb as real) > maxSizeMb as real
  }

  lemma RealDivisionCompare(sizeBytes: nat, maxSizeMb: nat)
    ensures (sizeBytes as real) / (BytesPerMb as real) > maxSizeMb as real
            <==> sizeBytes > maxSizeMb * BytesPerMb
  {
  }

  /** `estimate_chunks`: floor division of the text length by the chunk
      size, plus one. It is the least count `e` whose `e` chunks would
      exceed the text, so it is never zero. */
  function EstimateChunks(textLength: nat, chunkSize: nat): (e: nat)
    requires chunkSize > 0
    ensures e >= 1
    ensures (e - 1) * chunkSize <= textLength < e * chunkSize
  {
    textLength / chunkSize + 1
  }

  /** Why a file was refused, or that it was admitted. */
  datatype Verdict =
    | Admit
    | TooLarge
    | OverBudget(estimated: nat, existing: nat)

  /** `can_load_pdf`: the size check comes first; only a file within the
      size ceiling has its chunks estimated against the number of distinct
      ids already in the store. */
  function CanLoadPdf(sizeBytes: nat, textLength: nat, existingIds: set<string>, maxChunks: nat): (v: Verdict)
    ensures v == TooLarge <==> sizeBytes > MaxSizeMb * BytesPerMb
    ensures v == Admit <==>
              sizeBytes <= MaxSizeMb * BytesPerMb
              && |existingIds| < maxChunks
              && textLength < (maxChunks - |existingIds|) * ChunkSize
    ensures v.OverBudget? ==> v.existing == |existingIds| && v.existing + v.estimated > maxChunks
  {
    if IsPdfTooLarge(sizeBytes, MaxSizeMb) then TooLarge
    else
      var estimated := EstimateChunks(textLength, ChunkSize);
      var existing := |existingIds|;
      if existing + estimated > maxChunks then OverBudget(estimated, existing)
      else Admit
  }

  /** The boolean `can_load_pdf` returns, with the default budget: true
      exactly when the file is within the size ceiling and the distinct
      stored ids plus the estimate stay within the budget. */
  predicate CanLoad(sizeBytes: nat, textLength: nat, existingIds: set<string>): (ok: bool)
    ensures ok <==> !IsPdfTooLarge(sizeBytes, MaxSizeMb)
                    && |existingIds| + EstimateChunks(textLength, ChunkSize) <= MaxChunksAllowed
  {
    CanLoadPdf(sizeBytes, textLength, existingIds, MaxChunksAllowed) == Admit
  }

  /** Admission is monotone: a smaller file, shorter text or smaller store
      is admitted whenever the larger one was. */
  lemma AdmissionMonotone(size: nat, len: nat, ids: set<string>, size': nat, len': nat, ids': set<string>)
    requires CanLoad(size, len, ids)
    requires size' <= size && len' <= len && ids' <= ids
    ensures CanLoad(size', len', ids')
  {
    assert |ids'| <= |ids| by {
      SubsetCardinality(ids', ids);
    }
    assert (MaxChunksAllowed - |ids|) * ChunkSize <= (MaxChunksAllowed - |ids'|) * ChunkSize;
  }

  lemma SubsetCardinality<T>(a: set<T>, b: set<T>)
    requires a <= b
    ensures |a| <= |b|
  {
    assert b == a + (b - a);
  }

  /** Once the store holds the whole budget, nothing further is admitted. */
  lemma FullStoreAdmitsNothing(size: nat, len: nat, ids: set<string>)
    requires |ids| >= MaxChunksAllowed
    ensures !CanLoad(size, len, ids)
  {
  }
}

=== FILE: chunk_ids.dfy ===
/** Chunk identity (`calculate_chunk_ids`): every chunk gets the id
    `source:page:index`, where `index` counts the chunks before it in the
    current run of consecutive chunks that share its `source:page` key. The
    source walks the chunks once, carrying the previous key and the running
    index; here that walk is a fold over a `Cursor`. */
module ChunkIds {
  import opened Wrappers
  import opened PyText

  /** A chunk as the splitter hands it over. `source` and `page` are the
      metadata entries the id is built from (either may be missing, which the
      f-string renders as `None`); `id` is the metadata entry the
      identifier writes. */
  datatype Chunk = Chunk(text: string, source: Option<string>, page: Option<int>, id: Option<string>)

  /** How an f-string renders an optional source name: a missing source
      renders exactly like a file named `None`. */
  function RenderSource(source: Option<string>): (s: string)
    ensures source.Some? ==> s == source.value
    ensures s == "None" <==> source == None || source == Some("None")
  {
    match source
    case None => "None"
    case Some(s) => s
  }

  /** How an f-string renders an optional page number. */
  function RenderPage(page: Option<int>): (s: string)
    ensures ':' !in s
  {
    match page
    case None => "None"
    case Some(p) => IntToString(p)
  }

  /** A page number renders as `str` writes it, a missing page as `None`. */
  lemma RenderPageText(page: Option<int>)
    ensures page.Some? ==> RenderPage(page) == IntToString(page.value)
    ensures page.None? ==> RenderPage(page) == "None"
  {
  }

  /** The `source:page` key a chunk's index is counted within: the
      rendered source, then the rendered page after the key's last colon. */
  function PageKey(c: Chunk): (k: string)
    ensures var n := |RenderSource(c.source)|;
            && n < |k| && k[..n] == RenderSource(c.source) && k[n] == ':'
            && k[n + 1..] == RenderPage(c.page) && ':' !in k[n + 1..]
  {
    var k := RenderSource(c.source) + ":" + RenderPage(c.page);
    assert k[|RenderSource(c.source)| + 1..] == RenderPage(c.page);
    k
  }

  /** The id a chunk with key `key` gets at position `index` of its run:
      after the key and a colon come the decimal digits of the index,
      unpadded. */
  function ChunkId(key: string, index: nat): (id: string)
    ensures |key| < |id| && id[..|key|] == key && id[|key|] == ':'
    ensures IsDecimal(id[|key| + 1..]) && NoLeadingZero(id[|key| + 1..])
    ensures DecimalValue(id[|key| + 1..]) == index
  {
    var id := key + ":" + NatToString(index);
    assert id[|key| + 1..] == NatToString(index);
    id
  }

  /** The two variables the loop carries: the previous chunk's key (none
      before the first chunk) and the index given to that chunk. */
  datatype Cursor = Cursor(lastKey: Option<string>, index: nat)

  const Start := Cursor(None, 0)

  /** One step of the loop: the same key as before continues the run, any
      other key starts a new run at index 0. */
  function Advance(cur: Cursor, key: string): (next: Cursor)
    ensures next.lastKey == Some(key)
    ensures cur.lastKey == Some(key) ==> next.index == cur.index + 1
    ensures cur.lastKey != Some(key) ==> next.index == 0
  {
    if cur.lastKey == Some(key) then Cursor(Some(key), cur.index + 1)
    else Cursor(Some(key), 0)
  }

  /** The fold: the index the loop gives each key, starting from cursor
      `cur`. */
  function RunIndices(cur: Cursor, keys: seq<string>): (r: seq<nat>)
    ensures |r| == |keys|
    ensures |keys| > 0 ==> r[0] == Advance(cur, keys[0]).index
    ensures forall i :: 0 < i < |keys| && keys[i - 1] != keys[i] ==> r[i] == 0
    ensures forall i :: 0 < i < |keys| && keys[i - 1] == keys[i] ==> r[i] == r[i - 1] + 1
    decreases |keys|
  {
    if |keys| == 0 then []
    else
      var next := Advance(cur, keys[0]);
      [next.index] + RunIndices(next, keys[1..])
  }

  /** The `source:page` key of every chunk, in order. */
  function Keys(chunks: seq<Chunk>): (ks: seq<string>)
    ensures |ks| == |chunks|
  {
    seq(|chunks|, i requires 0 <= i < |chunks| => PageKey(chunks[i]))
  }

  /** `calculate_chunk_ids`: the fold from the initial cursor, each chunk
      getting its key and its index as id. The same chunks come back in the
      same order with every other field untouched. */
  function CalculateChunkIds(chunks: seq<Chunk>): (r: seq<Chunk>)
    ensures |r| == |chunks|
    ensures forall i :: 0 <= i < |r| ==> r[i].id.Some? && r[i] == chunks[i].(id := r[i].id)
  {
    var keys := Keys(chunks);
    var indices := RunIndices(Start, keys);
    seq(|chunks|, i requires 0 <= i < |chunks| => chunks[i].(id := Some(ChunkId(keys[i], indices[i]))))
  }

  // ---------------------------------------------------------------------
  // Reference definition: position within the run of equal keys
  // ---------------------------------------------------------------------

  /** The number of entries before position `i` that equal it with no
      different entry in between. */
  function RunPos<K(==)>(keys: seq<K>, i: nat): nat
    requires i < |keys|
    decreases i
  {
    if i == 0 || keys[i - 1] != keys[i] then 0 else RunPos(keys, i - 1) + 1
  }

  /** `keys[j..i+1]` is a maximal run ending at `i`: every entry in it
      equals `keys[i]` and the entry before it (if any) does not. */
  ghost predicate RunStartsAt<K>(keys: seq<K>, j: nat, i: nat)
    requires j <= i < |keys|
  {
    && (forall k :: j <= k <= i ==> keys[k] == keys[i])
    && (j == 0 || keys[j - 1] != keys[i])
  }

  /** The reference index is the distance back to the start of the maximal
      run that ends at `i`. */
  lemma {:induction false} RunPosIsRunLength<K>(keys: seq<K>, i: nat)
    requires i < |keys|
    ensures RunPos(keys, i) <= i
    ensures RunStartsAt(keys, i - RunPos(keys, i), i)
    decreases i
  {
    if i > 0 && keys[i - 1] == keys[i] {
      RunPosIsRunLength(keys, i - 1);
    }
  }

  /** An earlier entry's run position does not depend on what follows it. */
  lemma {:induction false} RunPosPrefix<K>(keys: seq<K>, more: seq<K>, i: nat)
    requires i < |keys|
    ensures RunPos(keys + more, i) == RunPos(keys, i)
    decreases i
  {
    if i > 0 {
      RunPosPrefix(keys, more, i - 1);
    }
  }

  /** Inside a run the positions go up by exactly one per entry. */
  lemma {:induction false} RunPosConsecutive<K>(keys: seq<K>, i: nat, j: nat)
    requires i <= j < |keys|
    requires forall k :: i <= k <= j ==> keys[k] == keys[i]
    ensures RunPos(keys, j) == RunPos(keys, i) + (j - i)
    decreases j - i
  {
    if i < j {
      RunPosConsecutive(keys, i, j - 1);
    }
  }

  /** The cursor the loop holds after it has walked over `done`. */
  function CursorAfter(done: seq<string>): Cursor {
    if |done| == 0 then Start
    else Cursor(Some(done[|done| - 1]), RunPos(done, |done| - 1))
  }

  lemma AdvanceCursorAfter(done: seq<string>, key: string)
    ensures Advance(CursorAfter(done), key) == CursorAfter(done + [key])
  {
    var all := done + [key];
    if |done| > 0 {
      RunPosPrefix(done, [key], |done| - 1);
      assert all[|done| - 1] == done[|done| - 1];
    }
  }

  /** The fold, run from the cursor left by `done`, gives entry `i` the
      reference position of its place in `done + keys`. */
  lemma {:induction false} RunIndicesFollowRuns(done: seq<string>, keys: seq<string>, i: nat)
    requires i < |keys|
    ensures RunIndices(CursorAfter(done), keys)[i] == RunPos(done + keys, |done| + i)
    decreases i
  {
    var key := keys[0];
    var rest := keys[1..];
    AdvanceCursorAfter(done, key);
    assert done + keys == (done + [key]) + rest;
    if i == 0 {
      RunPosPrefix(done + [key], rest, |done|);
    } else {
      RunIndicesFollowRuns(done + [key], rest, i - 1);
    }
  }

  /** From the initial cursor the fold computes the reference positions. */
  lemma RunIndicesFromStart(keys: seq<string>, i: nat)
    requires i < |keys|
    ensures RunIndices(Start, keys)[i] == RunPos(keys, i)
  {
    RunIndicesFollowRuns([], keys, i);
    assert [] + keys == keys;
  }

  // ---------------------------------------------------------------------
  // Properties of calculate_chunk_ids
  // ---------------------------------------------------------------------

  /** Every id is the chunk's own `source:page` key, a colon, and the
      chunk's position within the maximal run of equal keys it ends. */
  lemma ChunkIdsAreRunPositions(chunks: seq<Chunk>, i: nat)
    requires i < |chunks|
    ensures CalculateChunkIds(chunks)[i].id == Some(ChunkId(PageKey(chunks[i]), RunPos(Keys(chunks), i)))
    ensures RunPos(Keys(chunks), i) <= i
    ensures RunStartsAt(Keys(chunks), i - RunPos(Keys(chunks), i), i)
  {
    RunIndicesFromStart(Keys(chunks), i);
    RunPosIsRunLength(Keys(chunks), i);
  }

  /** The loop's reset rule, read off the output: the first chunk, and any
      chunk whose key differs from its predecessor's, gets index 0. */
  lemma NewRunStartsAtZero(chunks: seq<Chunk>, i: nat)
    requires i < |chunks|
    requires i == 0 || PageKey(chunks[i - 1]) != PageKey(chunks[i])
    ensures CalculateChunkIds(chunks)[i].id == Some(ChunkId(PageKey(chunks[i]), 0))
  {
    ChunkIdsAreRunPositions(chunks, i);
  }

  /** The loop's increment rule, read off the output: a chunk whose key
      equals its predecessor's gets the predecessor's index plus one. */
  lemma SameRunIncrements(chunks: seq<Chunk>, j: nat, n: nat)
    requires j + 1 < |chunks|
    requires PageKey(chunks[j]) == PageKey(chunks[j + 1])
    requires CalculateChunkIds(chunks)[j].id == Some(ChunkId(PageKey(chunks[j]), n))
    ensures CalculateChunkIds(chunks)[j + 1].id == Some(ChunkId(PageKey(chunks[j + 1]), n + 1))
  {
    var keys := Keys(chunks);
    IndexDetermined(chunks, j, n);
    assert keys[j] == keys[j + 1];
    RunPosStep(keys, j + 1);
    assert RunPos(keys, j + 1) == n + 1;
    ChunkIdsAreRunPositions(chunks, j + 1);
  }

  /** An id determines the index it carries. */
  lemma IndexDetermined(chunks: seq<Chunk>, i: nat, n: nat)
    requires i < |chunks|
    requires CalculateChunkIds(chunks)[i].id == Some(ChunkId(PageKey(chunks[i]), n))
    ensures n == RunPos(Keys(chunks), i)
  {
    ChunkIdsAreRunPositions(chunks, i);
    ChunkIdInjective(PageKey(chunks[i]), n, PageKey(chunks[i]), RunPos(Keys(chunks), i));
  }

  lemma RunPosStep<K>(keys: seq<K>, i: nat)
    requires 0 < i < |keys| && keys[i - 1] == keys[i]
    ensures RunPos(keys, i) == RunPos(keys, i - 1) + 1
  {
  }

  // ---------------------------------------------------------------------
  // Distinctness of ids
  // ---------------------------------------------------------------------

  /** Text ending in a separator followed by separator-free text splits
      uniquely at its last separator. */
  lemma SplitAtLastSeparator(a: string, x: string, b: string, y: string, sep: char)
    requires sep !in x && sep !in y
    requires a + [sep] + x == b + [sep] + y
    ensures a == b && x == y
  {
    var s := a + [sep] + x;
    ConcatIndices(a, sep, x);
    ConcatIndices(b, sep, y);
    if |x| != |y| {
      assert false;
    }
    assert a == s[..|a|] && b == s[..|b|];
    assert x == s[|a| + 1..] && y == s[|b| + 1..];
  }

  lemma ConcatIndices(a: string, sep: char, x: string)
    ensures (a + [sep] + x)[|a|] == sep
    ensures forall k :: 0 <= k < |x| ==> (a + [sep] + x)[|a| + 1 + k] == x[k]
  {
  }

  /** Different keys or different indices never give the same id. */
  lemma ChunkIdInjective(k1: string, n1: nat, k2: string, n2: nat)
    requires ChunkId(k1, n1) == ChunkId(k2, n2)
    ensures k1 == k2 && n1 == n2
  {
    assert ':' !in NatToString(n1) && ':' !in NatToString(n2) by {
      assert IsDecimal(NatToString(n1)) && IsDecimal(NatToString(n2));
    }
    SplitAtLastSeparator(k1, NatToString(n1), k2, NatToString(n2), ':');
    NatToStringInjective(n1, n2);
  }

  /** Two chunks share a key exactly when their rendered sources agree and
      their pages are equal. */
  lemma PageKeyInjective(c1: Chunk, c2: Chunk)
    ensures PageKey(c1) == PageKey(c2) <==>
              RenderSource(c1.source) == RenderSource(c2.source) && c1.page == c2.page
  {
    if PageKey(c1) == PageKey(c2) {
      SplitAtLastSeparator(RenderSource(c1.source), RenderPage(c1.page),
                           RenderSource(c2.source), RenderPage(c2.page), ':');
      match (c1.page, c2.page)
      case (Some(p), Some(q)) => IntToStringInjective(p, q);
      case (None, None) =>
      case _ =>
    }
  }

  /** Within one run of equal keys the ids are pairwise distinct. */
  lemma IdsDistinctWithinRun(chunks: seq<Chunk>, i: nat, j: nat)
    requires i < j < |chunks|
    requires forall k :: i <= k <= j ==> PageKey(chunks[k]) == PageKey(chunks[i])
    ensures CalculateChunkIds(chunks)[i].id != CalculateChunkIds(chunks)[j].id
  {
    var keys := Keys(chunks);
    RunPosConsecutive(keys, i, j);
    ChunkIdsAreRunPositions(chunks, i);
    ChunkIdsAreRunPositions(chunks, j);
    if CalculateChunkIds(chunks)[i].id == CalculateChunkIds(chunks)[j].id {
      ChunkIdInjective(PageKey(chunks[i]), RunPos(Keys(chunks), i), PageKey(chunks[j]), RunPos(Keys(chunks), j));
    }
  }

  /** Each key's chunks lie in one contiguous block, as they do when every
      page of every file appears once, in order. */
  ghost predicate Grouped(chunks: seq<Chunk>) {
    forall i, j, k :: 0 <= i < k < j < |chunks| && PageKey(chunks[i]) == PageKey(chunks[j])
                      ==> PageKey(chunks[k]) == PageKey(chunks[i])
  }

  /** When each key's chunks are contiguous, all ids of the batch differ. */
  lemma IdsDistinctWhenGrouped(chunks: seq<Chunk>, i: nat, j: nat)
    requires Grouped(chunks)
    requires i < j < |chunks|
    ensures CalculateChunkIds(chunks)[i].id != CalculateChunkIds(chunks)[j].id
  {
    if PageKey(chunks[i]) == PageKey(chunks[j]) {
      GroupedRun(chunks, i, j);
      IdsDistinctWithinRun(chunks, i, j);
    } else {
      IdsDifferAcrossKeys(chunks, i, j);
    }
  }

  /** In a grouped batch, two chunks with the same key enclose a run. */
  lemma GroupedRun(chunks: seq<Chunk>, i: nat, j: nat)
    requires Grouped(chunks)
    requires i < j < |chunks| && PageKey(chunks[i]) == PageKey(chunks[j])
    ensures forall k :: i <= k <= j ==> PageKey(chunks[k]) == PageKey(chunks[i])
  {
  }

  /** Chunks with different keys never share an id, wherever they sit. */
  lemma IdsDifferAcrossKeys(chunks: seq<Chunk>, i: nat, j: nat)
    requires i < |chunks| && j < |chunks|
    requires PageKey(chunks[i]) != PageKey(chunks[j])
    ensures CalculateChunkIds(chunks)[i].id != CalculateChunkIds(chunks)[j].id
  {
    ChunkIdsAreRunPositions(chunks, i);
    ChunkIdsAreRunPositions(chunks, j);
    if CalculateChunkIds(chunks)[i].id == CalculateChunkIds(chunks)[j].id {
      ChunkIdInjective(PageKey(chunks[i]), RunPos(Keys(chunks), i), PageKey(chunks[j]), RunPos(Keys(chunks), j));
    }
  }

  /** Without grouping, ids repeat: a page that comes back after another
      page restarts at index 0, so the same id is given twice. This is what
      happens when a file with more than one page is selected twice for the
      same run. */
  lemma ReturningPageRepeatsId()
    ensures var a := Chunk("x", Some("a.pdf"), Some(0), None);
            var b := Chunk("y", Some("a.pdf"), Some(1), None);
            var r := CalculateChunkIds([a, b, a]);
            r[0].id == r[2].id == Some("a.pdf:0:0")
  {
    var a := Chunk("x", Some("a.pdf"), Some(0), None);
    var b := Chunk("y", Some("a.pdf"), Some(1), None);
    assert NatToString(0) == "0" && NatToString(1) == "1";
    assert PageKey(a) == "a.pdf:0" && PageKey(b) == "a.pdf:1";
    assert [a, b, a][1..] == [b, a] && [b, a][1..] == [a];
    var keys := Keys([a, b, a]);
    assert keys[1] == PageKey(b) && keys[2] == PageKey(a);
    assert keys[1] != keys[2] by {
      assert keys[1][|keys[1]| - 1] == '1';
    }
    assert RunPos(keys, 0) == 0 && RunPos(keys, 2) == 0;
    assert ChunkId(PageKey(a), 0) == "a.pdf:0:0";
    ChunkIdsAreRunPositions([a, b, a], 0);
    ChunkIdsAreRunPositions([a, b, a], 2);
  }

  // ---------------------------------------------------------------------
  // Idempotence
  // ---------------------------------------------------------------------

  /** Running the identifier over its own output changes nothing: it reads
      only `source` and `page`, which it never writes, so the same chunks
      always get the same ids. */
  lemma CalculateChunkIdsIdempotent(chunks: seq<Chunk>)
    ensures CalculateChunkIds(CalculateChunkIds(chunks)) == CalculateChunkIds(chunks)
  {
    var r := CalculateChunkIds(chunks);
    assert Keys(r) == Keys(chunks) by {
      forall i | 0 <= i < |r| ensures Keys(r)[i] == Keys(chunks)[i] {
        assert r[i].source == chunks[i].source && r[i].page == chunks[i].page;
      }
    }
    var r2 := CalculateChunkIds(r);
    forall i | 0 <= i < |r| ensures r2[i] == r[i] {
      assert r2[i].id == r[i].id;
    }
    assert r2 == r;
  }
}

=== FILE: selection.dfy ===
/** Interactive file selection (`select_pdfs`): the `.pdf` entries of the
    data directory are offered by position, and the user's answer is read
    as comma-separated positions. Each token is stripped of surrounding
    whitespace and kept when it is a digit string naming an offered
    position; order and repeats are kept. An empty selection ends the run.
    The directory listing and the typed answer are inputs. */
module Selection {
  import opened Wrappers
  import opened PyText

  /** The directory the PDF files are read from. */
  const DataPath := "pdf_data"

  /** Why `select_pdfs` ends the run. `InvalidLiteral` is the ValueError the
      code as written raises from `int()`. */
  datatype Exit = NoPdfsFound | NoValidSelection | InvalidLiteral(token: string)

  /** `s.endswith(suffix)`: `s` is some text followed by `suffix`. */
  predicate EndsWith(s: string, suffix: string): (b: bool)
    ensures b <==> |suffix| <= |s| && s[..|s| - |suffix|] + suffix == s
  {
    |suffix| <= |s| && s[|s| - |suffix|..] == suffix
  }

  /** Any text followed by the suffix ends with it. */
  lemma EndsWithAppend(p: string, suffix: string)
    ensures EndsWith(p + suffix, suffix)
  {
    assert (p + suffix)[|p|..] == suffix;
  }

  /** The listing's entries that end in `.pdf`, in listing order. */
  function PdfFiles(listing: seq<string>): (files: seq<string>)
    ensures |files| <= |listing|
    ensures forall i :: 0 <= i < |files| ==> EndsWith(files[i], ".pdf") && files[i] in listing
    ensures forall i :: 0 <= i < |listing| && EndsWith(listing[i], ".pdf") ==> listing[i] in files
    decreases |listing|
  {
    if |listing| == 0 then []
    else
      var rest := PdfFiles(listing[1..]);
      assert forall i :: 0 < i < |listing| ==> listing[i] == listing[1..][i - 1];
      if EndsWith(listing[0], ".pdf") then [listing[0]] + rest else rest
  }

  /** Filtering distributes over concatenation: the offered files keep the
      listing's order, so position `k` names the `k`-th `.pdf` entry. */
  lemma {:induction false} PdfFilesAppend(a: seq<string>, b: seq<string>)
    ensures PdfFiles(a + b) == PdfFiles(a) + PdfFiles(b)
    decreases |a|
  {
    if |a| == 0 {
      assert a + b == b;
    } else {
      assert (a + b)[0] == a[0];
      assert (a + b)[1..] == a[1..] + b;
      PdfFilesAppend(a[1..], b);
      assert [a[0]] + (PdfFiles(a[1..]) + PdfFiles(b)) == ([a[0]] + PdfFiles(a[1..])) + PdfFiles(b);
    }
  }

  /** `os.path.join(DataPath, name)` for a bare file name: the directory,
      one separator, then the name unchanged. */
  function DataFilePath(name: string): (path: string)
    ensures |path| == |DataPath| + 1 + |name|
    ensures path[..|DataPath|] == DataPath && path[|DataPath|] == '/'
    ensures path[|DataPath| + 1..] == name
  {
    var path := DataPath + "/" + name;
    assert path[|DataPath| + 1..] == name;
    path
  }

  // ---------------------------------------------------------------------
  // Token parsing, as intended: only decimal digit strings are numbers
  // ---------------------------------------------------------------------

  /** The position one token names, if it names an offered one: after
      stripping, a non-empty string of decimal digits whose value is below
      the number of files. */
  function TokenIndex(token: string, fileCount: nat): (r: Option<nat>)
    ensures r.Some? ==> r.value < fileCount
  {
    var t := Strip(token);
    if IsDecimal(t) && DecimalValue(t) < fileCount then Some(DecimalValue(t)) else None
  }

  /** A kept token is, once stripped and cleared of leading zeros, the
      decimal rendering of an offered position. */
  lemma TokenIndexValue(token: string, fileCount: nat)
    ensures var r := TokenIndex(token, fileCount);
            r.Some? ==> r.value < fileCount && IsDecimal(Strip(token))
                        && NatToString(r.value) == Unpadded(Strip(token))
  {
    var t := Strip(token);
    if IsDecimal(t) {
      UnpaddedRendersValue(t);
    }
  }

  /** The positions a list of tokens names, in token order. */
  function TokenIndices(tokens: seq<string>, fileCount: nat): (r: seq<nat>)
    ensures |r| <= |tokens|
    ensures forall i :: 0 <= i < |r| ==> r[i] < fileCount
    decreases |tokens|
  {
    if |tokens| == 0 then []
    else
      var head := match TokenIndex(tokens[0], fileCount) case Some(k) => [k] case None => [];
      head + TokenIndices(tokens[1..], fileCount)
  }

  /** The positions the typed answer names. */
  function SelectedIndices(input: string, fileCount: nat): (r: seq<nat>)
    ensures forall i :: 0 <= i < |r| ==> r[i] < fileCount
  {
    TokenIndices(Split(input, ','), fileCount)
  }

  /** The index loop of `select_pdfs` with its exit: the selection fails
      exactly when no token names an offered position. */
  function ParseIndices(input: string, fileCount: nat): (r: Result<seq<nat>, Exit>)
    ensures r.Success? ==> |r.value| > 0 && forall i :: 0 <= i < |r.value| ==> r.value[i] < fileCount
    ensures r.Failure? ==> r.error == NoValidSelection
    ensures r.Failure? <==> NamesNothing(Split(input, ','), fileCount)
    ensures r.Success? ==> r.value == SelectedIndices(input, fileCount)
  {
    var tokens := Split(input, ',');
    NoIndicesIffNoValidToken(tokens, fileCount);
    var indices := TokenIndices(tokens, fileCount);
    if |indices| == 0 then Failure(NoValidSelection) else Success(indices)
  }

  /** No token names an offered position. */
  predicate NamesNothing(tokens: seq<string>, fileCount: nat) {
    forall i :: 0 <= i < |tokens| ==> TokenIndex(tokens[i], fileCount).None?
  }

  lemma {:induction false} NoIndicesIffNoValidToken(tokens: seq<string>, fileCount: nat)
    ensures |TokenIndices(tokens, fileCount)| == 0 <==> NamesNothing(tokens, fileCount)
    decreases |tokens|
  {
    if |tokens| > 0 {
      NoIndicesIffNoValidToken(tokens[1..], fileCount);
      assert forall i :: 0 < i < |tokens| ==> tokens[i] == tokens[1..][i - 1];
    }
  }

  /** `select_pdfs` with the corrected token rule: no offered file ends the
      run first; otherwise the chosen files, in the order and with the
      repeats the answer names, as paths under the data directory. */
  function SelectPdfs(listing: seq<string>, input: string): (r: Result<seq<string>, Exit>)
    ensures r.Success? <==> |PdfFiles(listing)| > 0 && |SelectedIndices(input, |PdfFiles(listing)|)| > 0
    ensures r.Failure? ==> r.error.NoPdfsFound? || r.error.NoValidSelection?
    ensures r == Failure(NoPdfsFound) <==> |PdfFiles(listing)| == 0
    ensures r == Failure(NoValidSelection) <==>
              |PdfFiles(listing)| > 0 && |SelectedIndices(input, |PdfFiles(listing)|)| == 0
    ensures r.Success? ==>
              var files := PdfFiles(listing);
              var idx := SelectedIndices(input, |files|);
              |r.value| == |idx| > 0
              && forall i :: 0 <= i < |idx| ==> r.value[i] == DataFilePath(files[idx[i]])
  {
    var files := PdfFiles(listing);
    if |files| == 0 then Failure(NoPdfsFound)
    else
      match ParseIndices(input, |files|)
      case Failure(e) => Failure(e)
      case Success(idx) =>
        Success(seq(|idx|, i requires 0 <= i < |idx| => DataFilePath(files[idx[i]])))
  }

  // ---------------------------------------------------------------------
  // Properties of the parse
  // ---------------------------------------------------------------------

  lemma {:induction false} TokenIndicesAppend(a: seq<string>, b: seq<string>, fileCount: nat)
    ensures TokenIndices(a + b, fileCount) == TokenIndices(a, fileCount) + TokenIndices(b, fileCount)
    decreases |a|
  {
    if |a| == 0 {
      assert a + b == b;
    } else {
      assert (a + b)[1..] == a[1..] + b;
      TokenIndicesAppend(a[1..], b, fileCount);
    }
  }

  lemma {:induction false} JoinAppend(a: seq<string>, b: seq<string>, sep: char)
    requires |a| > 0 && |b| > 0
    ensures Join(a + b, sep) == Join(a, sep) + [sep] + Join(b, sep)
    decreases |a|
  {
    if |a| == 1 {
      assert (a + b)[1..] == b;
    } else {
      assert (a + b)[1..] == a[1..] + b;
      JoinAppend(a[1..], b, sep);
    }
  }

  /** Answers separated by a comma select the first answer's positions
      followed by the second's: order and repeats are kept. */
  lemma SelectedIndicesConcat(a: string, b: string, fileCount: nat)
    ensures SelectedIndices(a + [','] + b, fileCount)
            == SelectedIndices(a, fileCount) + SelectedIndices(b, fileCount)
  {
    var pa := Split(a, ',');
    var pb := Split(b, ',');
    JoinSplit(a, ',');
    JoinSplit(b, ',');
    JoinAppend(pa, pb, ',');
    SplitJoin(pa + pb, ',');
    TokenIndicesAppend(pa, pb, fileCount);
  }

  /** A position written in decimal, after any number of leading zeros and
      with any whitespace around it, is selected exactly when it is below
      the number of files (`int("007") == 7`). */
  lemma TokenIndexPadded(pre: string, zeros: string, k: nat, post: string, fileCount: nat)
    requires forall i :: 0 <= i < |pre| ==> IsSpace(pre[i])
    requires forall i :: 0 <= i < |zeros| ==> zeros[i] == '0'
    requires forall i :: 0 <= i < |post| ==> IsSpace(post[i])
    ensures TokenIndex(pre + zeros + NatToString(k) + post, fileCount) == if k < fileCount then Some(k) else None
  {
    var s := zeros + NatToString(k);
    assert IsAsciiDigit(s[0]) && IsAsciiDigit(s[|s| - 1]);
    assert pre + zeros + NatToString(k) + post == pre + s + post;
    StripPadded(pre, s, post);
    ZerosValue(zeros, NatToString(k));
  }

  /** Leading zeros add nothing to the value of a decimal string. */
  lemma {:induction false} ZerosValue(zeros: string, s: string)
    requires forall i :: 0 <= i < |zeros| ==> zeros[i] == '0'
    requires IsDecimal(s)
    ensures IsDecimal(zeros + s) && DecimalValue(zeros + s) == DecimalValue(s)
    decreases |zeros|
  {
    if |zeros| > 0 {
      LeadingZeroValue(zeros + s);
      assert (zeros + s)[1..] == zeros[1..] + s;
      ZerosValue(zeros[1..], s);
    } else {
      assert zeros + s == s;
    }
  }

  /** The decimal renderings of positions, one token each. */
  function RenderIndices(indices: seq<nat>): (tokens: seq<string>)
    ensures |tokens| == |indices|
    ensures forall i :: 0 <= i < |indices| ==> tokens[i] == NatToString(indices[i])
  {
    seq(|indices|, i requires 0 <= i < |indices| => NatToString(indices[i]))
  }

  lemma {:induction false} TokenIndicesOfRendered(indices: seq<nat>, fileCount: nat)
    requires forall i :: 0 <= i < |indices| ==> indices[i] < fileCount
    ensures TokenIndices(RenderIndices(indices), fileCount) == indices
    decreases |indices|
  {
    if |indices| > 0 {
      var tokens := RenderIndices(indices);
      TokenIndexPadded("", "", indices[0], "", fileCount);
      assert "" + "" + NatToString(indices[0]) + "" == tokens[0];
      TokenIndicesOfRendered(indices[1..], fileCount);
      assert tokens[1..] == RenderIndices(indices[1..]);
      assert indices == [indices[0]] + indices[1..];
    }
  }

  /** Writing offered positions as a comma-separated answer and parsing it
      gives the same positions back, in order and with repeats. */
  lemma ParseIndicesRoundTrip(indices: seq<nat>, fileCount: nat)
    requires |indices| > 0
    requires forall i :: 0 <= i < |indices| ==> indices[i] < fileCount
    ensures ParseIndices(Join(RenderIndices(indices), ','), fileCount) == Success(indices)
  {
    var tokens := RenderIndices(indices);
    forall i | 0 <= i < |tokens| ensures ',' !in tokens[i] {
      assert IsDecimal(tokens[i]);
    }
    SplitJoin(tokens, ',');
    TokenIndicesOfRendered(indices, fileCount);
  }

  // ---------------------------------------------------------------------
  // Token parsing as written: `isdigit()` guards `int()`
  // ---------------------------------------------------------------------

  /** One token as the source treats it: `str.isdigit` decides whether
      `int()` is called, and `int()` raises on a superscript or subscript
      digit, which `isdigit` lets through, and on more than `MaxStrDigits`
      digits. */
  function TokenIndexAsWritten(token: string, fileCount: nat): (r: Result<Option<nat>, Exit>)
    ensures r.Failure? <==> RaisesAsWritten(token)
    ensures r.Failure? ==> r.error == InvalidLiteral(Strip(token))
    ensures r.Success? && r.value.Some? ==>
              r.value.value < fileCount && NatToString(r.value.value) == Unpadded(Strip(token))
  {
    var t := Strip(token);
    if IsDigitString(t) then
      match ParseInt(t)
      case None => Failure(InvalidLiteral(t))
      case Some(v) => Success(if v < fileCount then Some(v) else None)
    else Success(None)
  }

  /** A token on which the code as written raises: `isdigit` accepts it
      once stripped, and `int()` rejects it. */
  predicate RaisesAsWritten(token: string) {
    var t := Strip(token);
    IsDigitString(t) && !(AllAsciiDigits(t) && |t| <= MaxStrDigits)
  }

  predicate SomeTokenRaises(tokens: seq<string>) {
    exists i :: 0 <= i < |tokens| && RaisesAsWritten(tokens[i])
  }

  /** The token loop as written: the first raising token ends it. */
  function TokenIndicesAsWritten(tokens: seq<string>, fileCount: nat): (r: Result<seq<nat>, Exit>)
    ensures r.Success? ==> |r.value| <= |tokens| && forall i :: 0 <= i < |r.value| ==> r.value[i] < fileCount
    ensures r.Failure? ==> r.error.InvalidLiteral?
    decreases |tokens|
  {
    if |tokens| == 0 then Success([])
    else
      match TokenIndexAsWritten(tokens[0], fileCount)
      case Failure(e) => Failure(e)
      case Success(head) =>
        match TokenIndicesAsWritten(tokens[1..], fileCount)
        case Failure(e) => Failure(e)
        case Success(rest) =>
          Success((match head case Some(k) => [k] case None => []) + rest)
  }

  /** The ValueError names the first raising token: every token before it
      passed without raising. */
  lemma {:induction false} FirstRaisingToken(tokens: seq<string>, fileCount: nat)
    ensures var r := TokenIndicesAsWritten(tokens, fileCount);
            r.Failure? ==>
              exists i :: 0 <= i < |tokens| && RaisesAsWritten(tokens[i])
                          && r.error == InvalidLiteral(Strip(tokens[i]))
                          && forall j :: 0 <= j < i ==> !RaisesAsWritten(tokens[j])
    decreases |tokens|
  {
    var r := TokenIndicesAsWritten(tokens, fileCount);
    if |tokens| > 0 && r.Failure? {
      if RaisesAsWritten(tokens[0]) {
        assert RaisesAsWritten(tokens[0]) && r.error == InvalidLiteral(Strip(tokens[0]));
      } else {
        var rest := tokens[1..];
        FirstRaisingToken(rest, fileCount);
        var i :| 0 <= i < |rest| && RaisesAsWritten(rest[i])
                 && TokenIndicesAsWritten(rest, fileCount).error == InvalidLiteral(Strip(rest[i]))
                 && forall j :: 0 <= j < i ==> !RaisesAsWritten(rest[j]);
        assert tokens[i + 1] == rest[i];
        assert forall j :: 0 < j < i + 1 ==> tokens[j] == rest[j - 1];
        assert RaisesAsWritten(tokens[i + 1]) && r.error == InvalidLiteral(Strip(tokens[i + 1]));
      }
    }
  }

  /** The index loop of `select_pdfs` as written: it either raises on a
      token, ends with no valid selection, or yields offered positions. */
  function ParseIndicesAsWritten(input: string, fileCount: nat): (r: Result<seq<nat>, Exit>)
    ensures r.Success? ==> |r.value| > 0 && forall i :: 0 <= i < |r.value| ==> r.value[i] < fileCount
    ensures r.Failure? ==> r.error == NoValidSelection || r.error.InvalidLiteral?
    ensures r.Failure? && r.error.InvalidLiteral? <==> SomeTokenRaises(Split(input, ','))
    ensures !SomeTokenRaises(Split(input, ',')) ==> r == ParseIndices(input, fileCount)
  {
    TokensAgree(Split(input, ','), fileCount);
    match TokenIndicesAsWritten(Split(input, ','), fileCount)
    case Failure(e) => Failure(e)
    case Success(indices) => if |indices| == 0 then Failure(NoValidSelection) else Success(indices)
  }

  /** `select_pdfs` as written: the same as `SelectPdfs` except that a
      token `int()` rejects ends the run with ValueError. */
  function SelectPdfsAsWritten(listing: seq<string>, input: string): (r: Result<seq<string>, Exit>)
    ensures r == Failure(NoPdfsFound) <==> |PdfFiles(listing)| == 0
    ensures r.Success? ==> |r.value| > 0
    ensures r.Failure? && r.error.InvalidLiteral? ==>
              |PdfFiles(listing)| > 0 && ParseIndicesAsWritten(input, |PdfFiles(listing)|) == Failure(r.error)
    ensures |PdfFiles(listing)| > 0 ==>
              (r.Failure? <==> ParseIndicesAsWritten(input, |PdfFiles(listing)|).Failure?)
    ensures r.Success? ==>
              var files := PdfFiles(listing);
              var idx := ParseIndicesAsWritten(input, |files|).value;
              |r.value| == |idx|
              && forall i :: 0 <= i < |idx| ==> r.value[i] == DataFilePath(files[idx[i]])
  {
    var files := PdfFiles(listing);
    if |files| == 0 then Failure(NoPdfsFound)
    else
      match ParseIndicesAsWritten(input, |files|)
      case Failure(e) => Failure(e)
      case Success(idx) =>
        Success(seq(|idx|, i requires 0 <= i < |idx| => DataFilePath(files[idx[i]])))
  }

  predicate NoNonDecimalDigits(s: string) {
    forall i :: 0 <= i < |s| ==> !IsNonDecimalDigit(s[i])
  }

  /** On every token the code as written does not raise on, it agrees
      with the corrected rule. */
  lemma TokenAgrees(token: string, fileCount: nat)
    requires !RaisesAsWritten(token)
    ensures TokenIndexAsWritten(token, fileCount) == Success(TokenIndex(token, fileCount))
  {
  }

  /** A token without superscript or subscript digits, and no longer than
      `int()` accepts, does not raise. */
  lemma NoRaiseWithoutNonDecimalDigits(token: string)
    requires NoNonDecimalDigits(token) && |token| <= MaxStrDigits
    ensures !RaisesAsWritten(token)
  {
    var t := Strip(token);
    StripIsTrimmedSlice(token);
    var i, j :| 0 <= i <= j <= |token| && t == token[i..j];
    assert NoNonDecimalDigits(t) by {
      forall k | 0 <= k < |t| ensures !IsNonDecimalDigit(t[k]) {
        assert t[k] == token[i + k];
      }
    }
  }

  /** The token loop as written raises exactly when some token raises,
      and otherwise gives the corrected positions. */
  lemma {:induction false} TokensAgree(tokens: seq<string>, fileCount: nat)
    ensures TokenIndicesAsWritten(tokens, fileCount).Failure? <==> SomeTokenRaises(tokens)
    ensures !SomeTokenRaises(tokens) ==>
              TokenIndicesAsWritten(tokens, fileCount) == Success(TokenIndices(tokens, fileCount))
    decreases |tokens|
  {
    if |tokens| > 0 {
      TokensAgree(tokens[1..], fileCount);
      assert SomeTokenRaises(tokens) <==> RaisesAsWritten(tokens[0]) || SomeTokenRaises(tokens[1..]) by {
        assert forall i :: 0 < i < |tokens| ==> tokens[i] == tokens[1..][i - 1];
        if SomeTokenRaises(tokens[1..]) {
          var i :| 0 <= i < |tokens[1..]| && RaisesAsWritten(tokens[1..][i]);
          assert RaisesAsWritten(tokens[i + 1]);
        }
      }
      if !RaisesAsWritten(tokens[0]) {
        TokenAgrees(tokens[0], fileCount);
      }
    }
  }

  /** Every character of a piece of `s.split(sep)` is a character of `s`. */
  lemma {:induction false} SplitPieceChars(s: string, sep: char, i: nat, k: nat)
    requires i < |Split(s, sep)| && k < |Split(s, sep)[i]|
    ensures Split(s, sep)[i][k] in s
    decreases |s|
  {
    if |s| > 0 {
      var rest := Split(s[1..], sep);
      if s[0] == sep {
        SplitPieceChars(s[1..], sep, i - 1, k);
      } else if i == 0 && k == 0 {
      } else if i == 0 {
        SplitPieceChars(s[1..], sep, 0, k - 1);
      } else {
        SplitPieceChars(s[1..], sep, i, k);
      }
    }
  }

  /** An answer without superscript or subscript digits, whose tokens are
      no longer than `int()` accepts, parses the same either way: the
      defect only shows on such characters and such tokens. */
  lemma AsWrittenAgreesWithoutNonDecimalDigits(input: string, fileCount: nat)
    requires NoNonDecimalDigits(input)
    requires forall i :: 0 <= i < |Split(input, ',')| ==> |Split(input, ',')[i]| <= MaxStrDigits
    ensures !SomeTokenRaises(Split(input, ','))
    ensures ParseIndicesAsWritten(input, fileCount) == ParseIndices(input, fileCount)
  {
    var tokens := Split(input, ',');
    forall i | 0 <= i < |tokens| ensures !RaisesAsWritten(tokens[i]) {
      forall k | 0 <= k < |tokens[i]| ensures !IsNonDecimalDigit(tokens[i][k]) {
        SplitPieceChars(input, ',', i, k);
      }
      NoRaiseWithoutNonDecimalDigits(tokens[i]);
    }
  }

  /** On every answer none of whose tokens raises, `select_pdfs` as written
      and the corrected selection return the same. */
  lemma SelectPdfsAgree(listing: seq<string>, input: string)
    requires !SomeTokenRaises(Split(input, ','))
    ensures SelectPdfsAsWritten(listing, input) == SelectPdfs(listing, input)
  {
  }

  /** The answer `0,²` with two files offered: the code as written raises
      ValueError on `²`, which `isdigit` accepted; the corrected rule drops
      that token and selects file 0. */
  lemma SuperscriptTokenRaises()
    ensures ParseIndicesAsWritten("0,\U{B2}", 2) == Failure(InvalidLiteral("\U{B2}"))
    ensures ParseIndices("0,\U{B2}", 2) == Success([0])
  {
    SplitSuperscriptAnswer();
    SuperscriptTokens();
    assert ["0", "\U{B2}"][1..] == ["\U{B2}"];
    assert ["\U{B2}"][1..] == [];
    assert TokenIndices(["\U{B2}"], 2) == [];
    assert TokenIndices(["0", "\U{B2}"], 2) == [0];
  }

  lemma SplitSuperscriptAnswer()
    ensures Split("0,\U{B2}", ',') == ["0", "\U{B2}"]
  {
    var tokens := ["0", "\U{B2}"];
    assert Join(tokens, ',') == "0,\U{B2}";
    SplitJoin(tokens, ',');
  }

  /** How each of the two tokens is read, either way. */
  lemma SuperscriptTokens()
    ensures TokenIndexAsWritten("0", 2) == Success(Some(0)) && TokenIndex("0", 2) == Some(0)
    ensures TokenIndexAsWritten("\U{B2}", 2) == Failure(InvalidLiteral("\U{B2}"))
    ensures TokenIndex("\U{B2}", 2) == None
  {
  }

  /** A decimal token longer than `MaxStrDigits` passes `isdigit`, and
      `int()` raises on it; the corrected rule reads it as the number it
      is and drops it when out of range. */
  lemma OverlongTokenRaises(t: string, fileCount: nat)
    requires IsDecimal(t) && |t| > MaxStrDigits
    ensures TokenIndexAsWritten(t, fileCount) == Failure(InvalidLiteral(t))
    ensures DecimalValue(t) >= fileCount ==> TokenIndex(t, fileCount) == None
  {
    StripPadded("", t, "");
    assert "" + t + "" == t;
  }

  /** The answer `0,` followed by 4301 sevens, with two files offered: the
      code as written raises ValueError on the second token; the corrected
      rule drops it and selects file 0. */
  lemma OverlongAnswerRaises()
    ensures var t := seq(MaxStrDigits + 1, _ => '7');
            && ParseIndicesAsWritten("0," + t, 2) == Failure(InvalidLiteral(t))
            && ParseIndices("0," + t, 2) == Success([0])
  {
    var t := seq(MaxStrDigits + 1, _ => '7');
    assert IsDecimal(t);
    assert DecimalValue(t) >= 7;
    OverlongTokenRaises(t, 2);
    var tokens := ["0", t];
    assert Join(tokens, ',') == "0," + t by {
      assert tokens[1..] == [t];
    }
    SplitJoin(tokens, ',');
    SuperscriptTokens();
    assert tokens[1..] == [t];
    assert [t][1..] == [];
    assert TokenIndices([t], 2) == [];
    assert TokenIndices(tokens, 2) == [0];
    assert TokenIndicesAsWritten([t], 2) == Failure(InvalidLiteral(t));
    assert TokenIndicesAsWritten(tokens, 2) == Failure(InvalidLiteral(t));
  }
}

=== FILE: sync.dfy ===
/** Incremental store sync (`add_to_chroma`): ids are computed for the
    chunks, the store's id set is read once, and only the chunks whose id
    is not in it are inserted, in one batch. The store is modelled by its
    set of chunk ids; vectors, texts and the store's own treatment of a
    batch are outside the model. */
module Sync {
  import opened Wrappers
  import opened ChunkIds

  /** Every chunk carries an id, as after `calculate_chunk_ids`. */
  predicate Labelled(chunks: seq<Chunk>) {
    forall i :: 0 <= i < |chunks| ==> chunks[i].id.Some?
  }

  /** The ids of a labelled chunk sequence. */
  function IdsOf(chunks: seq<Chunk>): (ids: set<string>)
    requires Labelled(chunks)
    ensures forall i :: 0 <= i < |chunks| ==> chunks[i].id.value in ids
    ensures forall x :: x in ids ==> exists i :: 0 <= i < |chunks| && chunks[i].id == Some(x)
    decreases |chunks|
  {
    if |chunks| == 0 then {}
    else
      var rest := IdsOf(chunks[1..]);
      assert forall i :: 0 < i < |chunks| ==> chunks[i] == chunks[1..][i - 1];
      {chunks[0].id.value} + rest
  }

  /** The chunks whose id is not in `existing`, in their original order;
      each such chunk is kept as often as it occurs. */
  function NewChunks(chunks: seq<Chunk>, existing: set<string>): (r: seq<Chunk>)
    requires Labelled(chunks)
    ensures Labelled(r) && |r| <= |chunks|
    ensures forall i :: 0 <= i < |r| ==> r[i].id.value !in existing
    decreases |chunks|
  {
    if |chunks| == 0 then []
    else
      var rest := NewChunks(chunks[1..], existing);
      if chunks[0].id.value in existing then rest else [chunks[0]] + rest
  }

  /** A chunk is kept as often as it occurs when its id is new, and never
      otherwise. */
  lemma {:induction false} NewChunksCounts(chunks: seq<Chunk>, existing: set<string>, c: Chunk)
    requires Labelled(chunks)
    ensures multiset(NewChunks(chunks, existing))[c]
            == if c.id.Some? && c.id.value !in existing then multiset(chunks)[c] else 0
    decreases |chunks|
  {
    if |chunks| > 0 {
      NewChunksCounts(chunks[1..], existing, c);
      assert chunks == [chunks[0]] + chunks[1..];
    }
  }

  /** Filtering distributes over concatenation: the kept chunks of a batch
      come in the batch's order. */
  lemma {:induction false} NewChunksAppend(a: seq<Chunk>, b: seq<Chunk>, existing: set<string>)
    requires Labelled(a) && Labelled(b)
    ensures Labelled(a + b)
    ensures NewChunks(a + b, existing) == NewChunks(a, existing) + NewChunks(b, existing)
    decreases |a|
  {
    if |a| == 0 {
      assert a + b == b;
    } else {
      assert (a + b)[0] == a[0];
      assert (a + b)[1..] == a[1..] + b;
      NewChunksAppend(a[1..], b, existing);
      var ra := NewChunks(a[1..], existing);
      var rb := NewChunks(b, existing);
      assert [a[0]] + (ra + rb) == ([a[0]] + ra) + rb;
    }
  }

  /** The ids of the kept chunks are exactly the ids not already stored. */
  lemma {:induction false} NewChunkIds(chunks: seq<Chunk>, existing: set<string>)
    requires Labelled(chunks)
    ensures IdsOf(NewChunks(chunks, existing)) == IdsOf(chunks) - existing
    decreases |chunks|
  {
    if |chunks| > 0 {
      var rest := chunks[1..];
      NewChunkIds(rest, existing);
      var r := NewChunks(rest, existing);
      if chunks[0].id.value !in existing {
        assert ([chunks[0]] + r)[1..] == r;
      }
    }
  }

  /** The bulk insert handed to the store: the new chunks and, position by
      position, their ids. */
  datatype Insert = Insert(chunks: seq<Chunk>, ids: seq<string>)

  /** What one sync reports and leaves behind: the number of ids found in
      the store, the insert it made (none when nothing was new), and the
      store's id set afterwards. */
  datatype SyncOutcome = SyncOutcome(existingCount: nat, insert: Option<Insert>, store: set<string>)

  /** The id filter and bulk insert of `add_to_chroma` for chunks that
      already carry ids. */
  function SyncChunks(chunks: seq<Chunk>, existing: set<string>): (o: SyncOutcome)
    requires Labelled(chunks)
    ensures o.existingCount == |existing|
    ensures o.insert.None? <==> IdsOf(chunks) <= existing
    ensures o.insert.Some? ==>
              && o.insert.value.chunks == NewChunks(chunks, existing)
              && |o.insert.value.ids| == |o.insert.value.chunks|
              && (forall i :: 0 <= i < |o.insert.value.ids| ==>
                    Some(o.insert.value.ids[i]) == o.insert.value.chunks[i].id
                    && o.insert.value.ids[i] !in existing)
    // Nothing stored is lost; implied by the exact store below, kept as the
    // form callers use.
    ensures existing <= o.store
    ensures o.store == existing + IdsOf(chunks)
  {
    var added := NewChunks(chunks, existing);
    NewChunksEmpty(chunks, existing);
    if |added| == 0 then
      SyncOutcome(|existing|, None, existing)
    else
      var ids := seq(|added|, i requires 0 <= i < |added| => added[i].id.value);
      SyncOutcome(|existing|, Some(Insert(added, ids)), existing + IdsOf(added))
  }

  /** Nothing is kept exactly when every id is already stored; otherwise
      the kept ids are what the store gains. */
  lemma NewChunksEmpty(chunks: seq<Chunk>, existing: set<string>)
    requires Labelled(chunks)
    ensures |NewChunks(chunks, existing)| == 0 <==> IdsOf(chunks) <= existing
    ensures existing + IdsOf(NewChunks(chunks, existing)) == existing + IdsOf(chunks)
  {
    var added := NewChunks(chunks, existing);
    NewChunkIds(chunks, existing);
    if |added| > 0 {
      assert added[0].id.value in IdsOf(added);
    }
  }

  /** `add_to_chroma` as a whole: ids are computed first, then synced. */
  function AddToChroma(chunks: seq<Chunk>, existing: set<string>): (o: SyncOutcome)
    ensures o.existingCount == |existing|
    // Nothing stored is lost and every labelled id ends up stored; both are
    // implied by the exact store below, kept as the forms callers use.
    ensures existing <= o.store
    ensures forall i :: 0 <= i < |chunks| ==> CalculateChunkIds(chunks)[i].id.value in o.store
    ensures Labelled(CalculateChunkIds(chunks))
    ensures o.store == existing + IdsOf(CalculateChunkIds(chunks))
    ensures o.insert.None? <==> IdsOf(CalculateChunkIds(chunks)) <= existing
    ensures o.insert.Some? ==>
              && o.insert.value.chunks == NewChunks(CalculateChunkIds(chunks), existing)
              && |o.insert.value.ids| == |o.insert.value.chunks|
              && (forall i :: 0 <= i < |o.insert.value.ids| ==>
                    Some(o.insert.value.ids[i]) == o.insert.value.chunks[i].id
                    && o.insert.value.ids[i] !in existing)
  {
    var labelled := CalculateChunkIds(chunks);
    var o := SyncChunks(labelled, existing);
    assert forall i :: 0 <= i < |chunks| ==> labelled[i].id.value in IdsOf(labelled);
    o
  }

  /** Syncing the same chunks a second time inserts nothing and leaves the
      store as the first sync left it. */
  lemma SyncTwiceIsNoOp(chunks: seq<Chunk>, existing: set<string>)
    requires Labelled(chunks)
    ensures var first := SyncChunks(chunks, existing);
            var second := SyncChunks(chunks, first.store);
            second.insert.None? && second.store == first.store
  {
  }

  /** Re-ingesting unchanged input is a no-op: the ids come out the same,
      and they are all stored already. */
  lemma ReingestIsNoOp(chunks: seq<Chunk>, existing: set<string>)
    ensures var first := AddToChroma(chunks, existing);
            var second := AddToChroma(chunks, first.store);
            second.insert.None? && second.store == first.store
  {
  }

  /** A store holding `a.pdf:0:0`, given that chunk again and `a.pdf:0:1`,
      inserts the second one only and reports one id already present. */
  lemma OneNewOfTwo()
    ensures var c0 := Chunk("first", Some("a.pdf"), Some(0), Some("a.pdf:0:0"));
            var c1 := Chunk("second", Some("a.pdf"), Some(0), Some("a.pdf:0:1"));
            var o := SyncChunks([c0, c1], {"a.pdf:0:0"});
            o.existingCount == 1 && o.insert == Some(Insert([c1], ["a.pdf:0:1"]))
            && o.store == {"a.pdf:0:0", "a.pdf:0:1"}
  {
    var c0 := Chunk("first", Some("a.pdf"), Some(0), Some("a.pdf:0:0"));
    var c1 := Chunk("second", Some("a.pdf"), Some(0), Some("a.pdf:0:1"));
    assert "a.pdf:0:1" != "a.pdf:0:0" by {
      assert "a.pdf:0:1"[8] != "a.pdf:0:0"[8];
    }
    assert [c0, c1][1..] == [c1] && [c1][1..] == [];
    assert NewChunks([c1], {"a.pdf:0:0"}) == [c1];
    assert NewChunks([c0, c1], {"a.pdf:0:0"}) == [c1];
    assert IdsOf([c1]) == {"a.pdf:0:1"};
    var o := SyncChunks([c0, c1], {"a.pdf:0:0"});
    assert o.insert.value.ids == ["a.pdf:0:1"];
  }
}

=== FILE: text.dfy ===
/** The Python string primitives the ingestion script relies on: decimal
    rendering of integers inside f-strings, `str.split` on one separator,
    `str.strip()` with no argument, `str.isdigit()` and `int()` applied to
    a digit string. */
module PyText {
  import opened Wrappers

  // ---------------------------------------------------------------------
  // Character classes
  // ---------------------------------------------------------------------

  /** An ASCII decimal digit. */
  predicate IsAsciiDigit(c: char) {
    '0' <= c <= '9'
  }

  /** Superscript and subscript digits: `str.isdigit` accepts them (their
      Unicode numeric type is Digit) but `int()` does not (they are not
      decimal digits). */
  predicate IsNonDecimalDigit(c: char) {
    var k := c as int;
    k == 0xB2 || k == 0xB3 || k == 0xB9 || k == 0x2070
    || (0x2074 <= k <= 0x2079) || (0x2080 <= k <= 0x2089)
  }

  /** Python's `str.isspace` for one character: what `str.strip()` removes.
      No whitespace character is a digit, a comma or a colon, so stripping
      never eats into a number or a separator. */
  predicate IsSpace(c: char): (b: bool)
    ensures b ==> !IsAsciiDigit(c) && !IsNonDecimalDigit(c) && c != ',' && c != ':'
  {
    var k := c as int;
    (0x09 <= k <= 0x0D) || (0x1C <= k <= 0x20) || k == 0x85 || k == 0xA0
    || k == 0x1680 || (0x2000 <= k <= 0x200A) || k == 0x2028 || k == 0x2029
    || k == 0x202F || k == 0x205F || k == 0x3000
  }

  function DigitValue(c: char): (d: nat)
    requires IsAsciiDigit(c)
    ensures d < 10
  {
    c as int - '0' as int
  }

  function DigitChar(d: nat): (c: char)
    requires d < 10
    ensures IsAsciiDigit(c) && DigitValue(c) == d
  {
    ('0' as int + d) as char
  }

  // ---------------------------------------------------------------------
  // Digit strings and decimal rendering
  // ---------------------------------------------------------------------

  predicate AllAsciiDigits(s: string) {
    forall i :: 0 <= i < |s| ==> IsAsciiDigit(s[i])
  }

  /** `str.isdecimal()` restricted to ASCII: non-empty, decimal digits only. */
  predicate IsDecimal(s: string) {
    |s| > 0 && AllAsciiDigits(s)
  }

  /** `str.isdigit()` over the modelled character classes: non-empty, and
      every character a decimal or a superscript/subscript digit. */
  predicate IsDigitString(s: string): (b: bool)
    ensures IsDecimal(s) ==> b
    ensures b ==> |s| > 0 && (IsDecimal(s) <==> forall i :: 0 <= i < |s| ==> !IsNonDecimalDigit(s[i]))
  {
    |s| > 0 && forall i :: 0 <= i < |s| ==> IsAsciiDigit(s[i]) || IsNonDecimalDigit(s[i])
  }

  /** `isdigit` accepts every non-empty string of decimal, superscript and
      subscript digits, `"\U{B2}"` among them, although such a string is
      not decimal as soon as it holds one of the latter. */
  lemma DigitStringAccepts(s: string)
    requires |s| > 0
    requires forall i :: 0 <= i < |s| ==> IsAsciiDigit(s[i]) || IsNonDecimalDigit(s[i])
    ensures IsDigitString(s)
    ensures (exists i :: 0 <= i < |s| && IsNonDecimalDigit(s[i])) ==> !IsDecimal(s)
  {
  }

  /** The number a string of ASCII digits denotes (leading zeros allowed,
      as `int("007") == 7`). */
  function DecimalValue(s: string): nat
    requires AllAsciiDigits(s)
    decreases |s|
  {
    if |s| == 0 then 0 else 10 * DecimalValue(s[..|s| - 1]) + DigitValue(s[|s| - 1])
  }

  /** The canonical form of a decimal string: a leading `0` only in `"0"`
      itself. `str` never pads a number. */
  predicate NoLeadingZero(s: string) {
    |s| > 0 && (s[0] == '0' ==> |s| == 1)
  }

  /** `str(n)` for a natural number. */
  function NatToString(n: nat): (s: string)
    ensures IsDecimal(s) && NoLeadingZero(s)
    ensures DecimalValue(s) == n
    decreases n
  {
    if n < 10 then [DigitChar(n)]
    else
      var p := NatToString(n / 10);
      var s := p + [DigitChar(n % 10)];
      assert s[..|s| - 1] == p;
      s
  }

  lemma NatToStringInjective(m: nat, n: nat)
    requires NatToString(m) == NatToString(n)
    ensures m == n
  {
  }

  /** `str(i)` for any integer: a minus sign before the magnitude. */
  function IntToString(i: int): (s: string)
    ensures |s| > 0 && (s[0] == '-' || IsAsciiDigit(s[0]))
    ensures forall k :: 0 <= k < |s| ==> s[k] == '-' || IsAsciiDigit(s[k])
    ensures i >= 0 ==> IsDecimal(s) && NoLeadingZero(s) && DecimalValue(s) == i
    ensures i < 0 ==> s[0] == '-' && IsDecimal(s[1..]) && NoLeadingZero(s[1..]) && DecimalValue(s[1..]) == -i
  {
    if i < 0 then
      var s := "-" + NatToString(-i);
      assert s[1..] == NatToString(-i);
      s
    else NatToString(i)
  }

  lemma IntToStringInjective(i: int, j: int)
    requires IntToString(i) == IntToString(j)
    ensures i == j
  {
    if i < 0 && j < 0 {
      assert NatToString(-i) == IntToString(i)[1..];
      NatToStringInjective(-i, -j);
    } else if 0 <= i && 0 <= j {
      NatToStringInjective(i, j);
    }
  }

  /** The default bound `int()` puts on the number of digits of a decimal
      string (`sys.int_info.default_max_str_digits`, CPython 3.11 and later);
      a longer string makes `int()` raise ValueError. */
  const MaxStrDigits: nat := 4300

  /** A digit string with its redundant leading zeros removed: the zero
      itself survives when every digit is a zero. */
  function Unpadded(s: string): string
    decreases |s|
  {
    if |s| > 1 && s[0] == '0' then Unpadded(s[1..]) else s
  }

  /** `int(s)` on a string `str.isdigit` accepted: the value when every
      character is a decimal digit and there are at most `MaxStrDigits` of
      them, `None` where Python raises ValueError. The value's rendering is
      the string without its leading zeros. */
  function ParseInt(s: string): (r: Option<nat>)
    requires IsDigitString(s)
    ensures r.Some? <==> AllAsciiDigits(s) && |s| <= MaxStrDigits
    ensures r.Some? ==> NatToString(r.value) == Unpadded(s)
  {
    if AllAsciiDigits(s) && |s| <= MaxStrDigits then
      UnpaddedRendersValue(s);
      Some(DecimalValue(s))
    else None
  }

  /** A leading zero adds nothing to a digit string's value. */
  lemma {:induction false} LeadingZeroValue(s: string)
    requires AllAsciiDigits(s) && |s| > 0 && s[0] == '0'
    ensures DecimalValue(s) == DecimalValue(s[1..])
    decreases |s|
  {
    if |s| > 1 {
      var p := s[..|s| - 1];
      LeadingZeroValue(p);
      assert p[1..] == s[1..][..|s| - 2];
    } else {
      assert s[..0] == [];
    }
  }

  /** Dropping the leading zeros of a decimal string keeps its value and
      leaves the canonical rendering of that value. */
  lemma {:induction false} UnpaddedRendersValue(s: string)
    requires IsDecimal(s)
    ensures NatToString(DecimalValue(s)) == Unpadded(s)
    decreases |s|
  {
    if |s| > 1 && s[0] == '0' {
      LeadingZeroValue(s);
      UnpaddedRendersValue(s[1..]);
    } else if s[0] == '0' {
      assert DecimalValue(s) == 0 by {
        assert s[..0] == [];
      }
    } else {
      CanonicalDigits(s);
    }
  }

  /** A digit string without a leading zero is the rendering of its value. */
  lemma {:induction false} CanonicalDigits(s: string)
    requires IsDecimal(s)
    ensures s[0] != '0' ==> NatToString(DecimalValue(s)) == s
    decreases |s|
  {
    if s[0] != '0' && |s| > 1 {
      var p := s[..|s| - 1];
      assert p[0] == s[0];
      CanonicalDigits(p);
      var v := DecimalValue(s);
      assert NatToString(DecimalValue(p)) == p;
      assert DecimalValue(p) >= 1;
      assert v / 10 == DecimalValue(p) && v % 10 == DigitValue(s[|s| - 1]);
      assert v >= 10;
      assert DigitChar(v % 10) == s[|s| - 1];
      assert s == p + [s[|s| - 1]];
    } else if s[0] != '0' {
      assert DecimalValue(s) == DigitValue(s[0]) by {
        assert s[..0] == [];
      }
      assert DigitChar(DigitValue(s[0])) == s[0];
    }
  }

  // ---------------------------------------------------------------------
  // str.split(sep) and its inverse, sep.join(parts)
  // ---------------------------------------------------------------------

  /** `sep.join(parts)` for a non-empty list of parts. */
  function Join(parts: seq<string>, sep: char): string
    requires |parts| > 0
    decreases |parts|
  {
    if |parts| == 1 then parts[0] else parts[0] + [sep] + Join(parts[1..], sep)
  }

  /** `s.split(sep)`: always at least one piece (`"".split(",") == [""]`),
      empty pieces kept. */
  function Split(s: string, sep: char): (r: seq<string>)
    ensures |r| > 0
    ensures forall i :: 0 <= i < |r| ==> sep !in r[i]
    decreases |s|
  {
    if |s| == 0 then [""]
    else if s[0] == sep then [""] + Split(s[1..], sep)
    else
      var rest := Split(s[1..], sep);
      [[s[0]] + rest[0]] + rest[1..]
  }

  /** Joining the pieces with the separator gives back the original text. */
  lemma {:induction false} JoinSplit(s: string, sep: char)
    ensures Join(Split(s, sep), sep) == s
    decreases |s|
  {
    if |s| > 0 {
      var rest := Split(s[1..], sep);
      JoinSplit(s[1..], sep);
      var r := Split(s, sep);
      if s[0] == sep {
        assert r[1..] == rest;
      } else {
        assert r[1..] == rest[1..];
        if |rest| > 1 {
          assert Join(rest, sep) == rest[0] + [sep] + Join(rest[1..], sep);
        }
      }
      assert s == [s[0]] + s[1..];
    }
  }

  /** Splitting a piece that holds no separator, glued onto more text. */
  lemma {:induction false} SplitGlued(a: string, sep: char, t: string)
    requires sep !in a
    ensures Split(a + t, sep) == [a + Split(t, sep)[0]] + Split(t, sep)[1..]
    decreases |a|
  {
    if |a| > 0 {
      assert (a + t)[1..] == a[1..] + t;
      assert (a + t)[0] == a[0];
      SplitGlued(a[1..], sep, t);
      assert [a[0]] + (a[1..] + Split(t, sep)[0]) == a + Split(t, sep)[0];
    } else {
      assert a + t == t;
      assert a + Split(t, sep)[0] == Split(t, sep)[0];
      assert Split(t, sep) == [Split(t, sep)[0]] + Split(t, sep)[1..];
    }
  }

  /** Joining pieces that hold no separator and splitting again gives the
      pieces back. */
  lemma {:induction false} SplitJoin(parts: seq<string>, sep: char)
    requires |parts| > 0
    requires forall i :: 0 <= i < |parts| ==> sep !in parts[i]
    ensures Split(Join(parts, sep), sep) == parts
    decreases |parts|
  {
    if |parts| == 1 {
      SplitGlued(parts[0], sep, "");
      assert parts[0] + "" == parts[0];
      assert Split("", sep) == [""];
      assert parts == [parts[0]];
    } else {
      var tail := Join(parts[1..], sep);
      SplitJoin(parts[1..], sep);
      assert Split([sep] + tail, sep) == [""] + parts[1..] by {
        assert ([sep] + tail)[1..] == tail;
      }
      SplitGlued(parts[0], sep, [sep] + tail);
      assert Join(parts, sep) == parts[0] + ([sep] + tail);
      assert Split(Join(parts, sep), sep) == [parts[0] + ""] + parts[1..];
      assert parts[0] + "" == parts[0];
      assert parts == [parts[0]] + parts[1..];
    }
  }

  // ---------------------------------------------------------------------
  // str.strip()
  // ---------------------------------------------------------------------

  /** `s.lstrip()`: leading whitespace dropped. */
  function StripLeft(s: string): string
    decreases |s|
  {
    if |s| > 0 && IsSpace(s[0]) then StripLeft(s[1..]) else s
  }

  /** `s.rstrip()`: trailing whitespace dropped. */
  function StripRight(s: string): string
    decreases |s|
  {
    if |s| > 0 && IsSpace(s[|s| - 1]) then StripRight(s[..|s| - 1]) else s
  }

  /** `lstrip` keeps a suffix, cuts only whitespace, and stops at the first
      non-whitespace character. */
  lemma {:induction false} StripLeftIsSuffix(s: string)
    ensures var r := StripLeft(s);
            |r| <= |s| && r == s[|s| - |r|..]
            && (forall k :: 0 <= k < |s| - |r| ==> IsSpace(s[k]))
            && (|r| > 0 ==> !IsSpace(r[0]))
    decreases |s|
  {
    if |s| > 0 && IsSpace(s[0]) {
      StripLeftIsSuffix(s[1..]);
    }
  }

  /** `rstrip` keeps a prefix, cuts only whitespace, and stops at the last
      non-whitespace character. */
  lemma {:induction false} StripRightIsPrefix(s: string)
    ensures var r := StripRight(s);
            |r| <= |s| && r == s[..|r|]
            && (forall k :: |r| <= k < |s| ==> IsSpace(s[k]))
            && (|r| > 0 ==> !IsSpace(r[|r| - 1]))
    decreases |s|
  {
    if |s| > 0 && IsSpace(s[|s| - 1]) {
      StripRightIsPrefix(s[..|s| - 1]);
    }
  }

  /** `s.strip()`: whitespace removed from both ends, so what is left is
      no longer than `s` (`StripIsTrimmedSlice` says which slice it is). */
  function Strip(s: string): (r: string)
    ensures |r| <= |s|
  {
    StripLeftIsSuffix(s);
    StripRightIsPrefix(StripLeft(s));
    StripRight(StripLeft(s))
  }

  /** What `strip()` returns is a contiguous slice of `s` that neither
      begins nor ends with whitespace, and only whitespace is cut away on
      either side of it. */
  lemma StripIsTrimmedSlice(s: string)
    ensures var r := Strip(s);
            exists i, j :: 0 <= i <= j <= |s| && r == s[i..j]
                           && (forall k :: 0 <= k < i ==> IsSpace(s[k]))
                           && (forall k :: j <= k < |s| ==> IsSpace(s[k]))
    ensures var r := Strip(s);
            |r| > 0 ==> !IsSpace(r[0]) && !IsSpace(r[|r| - 1])
  {
    var l := StripLeft(s);
    var r := StripRight(l);
    StripLeftIsSuffix(s);
    StripRightIsPrefix(l);
    StripSlice(s, l, r);
    assert |r| > 0 ==> r[0] == l[0];
    var i := |s| - |l|;
    var j := i + |r|;
    assert r == s[i..j];
  }

  /** Cutting a whitespace prefix and then a whitespace suffix leaves a
      slice of the original with whitespace on both cut sides. */
  lemma StripSlice(s: string, l: string, r: string)
    requires |l| <= |s| && l == s[|s| - |l|..]
    requires forall k :: 0 <= k < |s| - |l| ==> IsSpace(s[k])
    requires |r| <= |l| && r == l[..|r|]
    requires forall k :: |r| <= k < |l| ==> IsSpace(l[k])
    ensures r == s[|s| - |l|..|s| - |l| + |r|]
    ensures forall k :: |s| - |l| + |r| <= k < |s| ==> IsSpace(s[k])
  {
  }

  /** Whitespace around a text with no whitespace at its ends is exactly
      what `strip()` removes. */
  lemma {:induction false} StripPadded(pre: string, t: string, post: string)
    requires forall k :: 0 <= k < |pre| ==> IsSpace(pre[k])
    requires forall k :: 0 <= k < |post| ==> IsSpace(post[k])
    requires |t| > 0 && !IsSpace(t[0]) && !IsSpace(t[|t| - 1])
    ensures Strip(pre + t + post) == t
  {
    var s := pre + t + post;
    StripLeftPadded(pre, t + post);
    assert s == pre + (t + post);
    StripRightPadded(t, post);
  }

  lemma {:induction false} StripLeftPadded(pre: string, u: string)
    requires forall k :: 0 <= k < |pre| ==> IsSpace(pre[k])
    requires |u| > 0 && !IsSpace(u[0])
    ensures StripLeft(pre + u) == u
    decreases |pre|
  {
    if |pre| > 0 {
      assert (pre + u)[1..] == pre[1..] + u;
      StripLeftPadded(pre[1..], u);
    } else {
      assert pre + u == u;
    }
  }

  lemma {:induction false} StripRightPadded(u: string, post: string)
    requires forall k :: 0 <= k < |post| ==> IsSpace(post[k])
    requires |u| > 0 && !IsSpace(u[|u| - 1])
    ensures StripRight(u + post) == u
    decreases |post|
  {
    if |post| > 0 {
      var p := post[..|post| - 1];
      assert (u + post)[..|u + post| - 1] == u + p;
      StripRightPadded(u, p);
    } else {
      assert u + post == u;
    }
  }
}

=== FILE: wrappers.dfy ===
/** Failure-carrying datatypes shared by the other modules. */
module Wrappers {

  /** A value that may be absent; Python's `None` is `None` here. */
  datatype Option<+T> = None | Some(value: T)

  /** Either a value or the reason the script stopped. */
  datatype Result<+R, +E> = Success(value: R) | Failure(error: E)
}
